=== FILE: README.md ===
# Toy transaction engine: a Dafny model

This project models the core of a toy payments engine. The engine reads a log of
client transactions and keeps one account per client. The five transaction
kinds are deposit, withdrawal, dispute, resolve and chargeback. Each account
holds `held` and `total` balances, a lock flag and a history of recorded
transactions. A pool of workers applies the log, and each client is routed to a
worker by `client % parallelism`.

The model has two parts:

- **The per-client state machine.** `Engine.Step` is a pure function from an
  account and a transaction to `Result<Account, Error>`. Amounts are exact
  decimals (Dafny `real`). `Success(a)` with `a` unchanged means the
  transaction was ignored and nothing was recorded. `Engine.AddTransaction`
  lifts a step to the map from client to account. It creates the client's
  account first, as the source does, even when the step then fails.
- **The dispatcher, without threads.** This part covers the worker-count
  derivation, routing to per-worker FIFO queues, and `wait` as the drain of
  those queues. The main theorem is `Sharding.ShardedEqualsSequential`. For
  every worker setting and host parallelism, the sharded run succeeds exactly
  when applying the input sequentially raises no fatal error. When it
  succeeds, both give the same account map. `Sharding.AnyShardInterleaving`
  shows the same for any concurrent schedule that keeps each shard's order.

Modules:

- `Wrappers`: `Option` and `Result`.
- `Transactions`: ids, kinds, records and wire names.
- `Csv`: the line pre-validator.
- `Engine`: the state machine and the account directory.
- `EngineLemmas`: the properties of the state machine.
- `Dispatch`: the worker pool.
- `Sharding`: per-client isolation and the sharding theorem.
- `Examples`: worked scenarios.

Behaviour the model keeps as the code has it:

- **First match by kind.** Dispute, resolve and chargeback look up the earliest
  entry *of the wanted kind* under the id, not the earliest entry overall.
  So the check at `src/transaction_engine.rs:102` that the found entry is a
  deposit can never fail. `Engine.FirstOfKind` states this in its contract
  instead of repeating the dead branch.
- **No record when ignored.** An ignored dispute, resolve or chargeback
  returns early and is not recorded. A withdrawal refused for lack of funds
  is recorded.
- **Old entries are found again.** Dispute entries stay in the history, so a
  second resolve or chargeback of the same id passes its preconditions
  again (`EngineLemmas.RepeatedSettlementPasses`,
  `Examples.RepeatedResolveExample`).
- **Held may exceed total.** A dispute is applied even when held then exceeds
  total; that case only logs a warning. A chargeback may leave total
  negative.
- **The lock is never read.** A locked account still accepts deposits and
  withdrawals.
- **Amounts are never sign-checked.** A negative deposit lowers total, a
  negative withdrawal always passes the funds check and raises total, and
  disputing a negative deposit makes held negative
  (`EngineLemmas.UnsignedAmounts`, `EngineLemmas.DisputeEffect`). The comments at `src/transaction.rs:25-34`
  therefore describe the code only for positive amounts.
- **No trimming before validation.** `valid_line` rejects only empty and
  non-ASCII lines, so a line made only of spaces is accepted.

## Model

| member | source | states |
|---|---|---|
| `Transactions.KindName` | src/transaction.rs:23-39 | each kind's wire name is non-empty lower-case text |
| `Transactions.ParseKind` | src/transaction.rs:23 | a decoded name is exactly the wire name of the kind it decodes to |
| `Transactions.KindRoundTrip` | src/transaction.rs:23 | decoding the wire name of a kind gives that kind back |
| `Transactions.ParseKindExact` | src/transaction.rs:23 | a name decodes exactly when it is some kind's wire name |
| `Transactions.FiveDistinctKinds` | src/transaction.rs:24-39 | there are exactly five kinds and their wire names are pairwise distinct |
| `Csv.IsAscii` | src/csv.rs:42 | the ASCII test holds exactly when every character is below 0x80 |
| `Csv.ValidLine` | src/csv.rs:41-47 | a line is accepted exactly when it is non-empty and all ASCII, and the accepted value is the line unchanged |
| `Csv.EmptyLineRejected` | src/csv.rs:42-43 | the empty line is rejected |
| `Csv.NonAsciiRejected` | src/csv.rs:42-43 | a line with a non-ASCII character at any position is rejected |
| `Csv.BlankLineAccepted` | src/csv.rs:42-46 | a line of spaces only is accepted as it is, with no trimming |
| `Engine.Available` | src/transaction_engine.rs:28-30 | available funds are never negative, are at least total minus held, and equal it whenever held does not exceed total |
| `Engine.Append` | src/transaction_engine.rs:208-218 | recording adds the entry at the end of its id's list, creating the list when needed, and leaves every other id's list alone |
| `Engine.Record` | src/transaction_engine.rs:208-218 | recording changes only the history, and always changes it |
| `Engine.FirstIndexOfKind` | src/transaction_engine.rs:241-243 | the index found holds an entry of the wanted kind and no earlier entry has that kind; nothing is found only when no entry has that kind |
| `Engine.FirstOfKind` | src/transaction_engine.rs:236-244 | the entry found has the wanted kind and is the earliest entry of that kind under the id, every entry before it being of another kind; nothing is found exactly when no entry under the id has that kind |
| `Engine.DisputedDeposit` | src/transaction_engine.rs:121-144 | a resolve or chargeback finds a deposit exactly when the id's history holds both a dispute entry and a deposit entry, and the entry found is the earliest deposit entry |
| `Engine.Step` | src/transaction_engine.rs:58-221 | the lock only moves to Locked and only by a chargeback; a step either changes nothing or records exactly this transaction; only disputes, resolves and chargebacks are ignored; total moves only by deposit, withdrawal or chargeback and held only by dispute, resolve or chargeback; an applied resolve or chargeback leaves held at or above zero; each fatal error arises only from its own condition |
| `Engine.RunAccount` | src/transaction_engine.rs:58-206 | once an account is locked it stays locked through any run of transactions |
| `Engine.AddTransaction` | src/transaction_engine.rs:58-63 | the client's account, looked up or created fresh as in lines 59-61 by the helper `Engine.AccountOf`, exists afterwards even when the step fails or is ignored; no other client's account changes; the call fails exactly when the step fails, and then the account keeps its prior balances |
| `Engine.ApplyAll` | src/main.rs:133-136 | applying a queue in order never removes an account |
| `Engine.ApplyAllAppend` | src/main.rs:133-136 | applying two queues one after the other is applying their concatenation, unless the first one already failed |
| `Engine.CurrentAccountStates` | src/transaction_engine.rs:222-233 | the snapshot has one row per stored account and no two rows share a client; each row carries that account's available, held, total and lock |
| `EngineLemmas.DepositEffect` | src/transaction_engine.rs:65-72 | a deposit with an amount adds exactly that amount to total, keeps held and the lock, and is recorded; without an amount it is a fatal error |
| `EngineLemmas.WithdrawalEffect` | src/transaction_engine.rs:73-86 | a withdrawal larger than available leaves the balances unchanged but is still recorded; otherwise total falls by the amount and held is unchanged; without an amount it is a fatal error |
| `EngineLemmas.DisputeEffect` | src/transaction_engine.rs:87-119 | a dispute adds the earliest deposit's amount to held, leaves total alone and is recorded, even when held then exceeds total; with no deposit entry it is ignored |
| `EngineLemmas.ResolveEffect` | src/transaction_engine.rs:120-159 | a resolve without a dispute entry or without a deposit entry is ignored; it is fatal when held would go below zero; otherwise held falls by the deposit's amount and total is unchanged |
| `EngineLemmas.ChargebackEffect` | src/transaction_engine.rs:160-205 | a chargeback has the preconditions and fatal case of a resolve; otherwise the deposit's amount is subtracted from both held and total, and the account is locked, even when total goes negative |
| `EngineLemmas.DocumentedEffects` | src/transaction.rs:25-38 | an applied deposit adds its amount to total, and to available too while held does not exceed total and the amount is not negative; an applied withdrawal subtracts its amount from both; a dispute adds the deposit's amount to held, keeps total and subtracts it from available; a resolve subtracts the deposit's amount from held, keeps total and adds it to available; a chargeback subtracts the amount from held and total, keeps available and locks the account |
| `EngineLemmas.LockNeverConsulted` | src/transaction_engine.rs:58-206 | the outcome of a step does not depend on the lock, so a locked account still accepts every kind |
| `EngineLemmas.StepPreservesWellFormed` | src/transaction_engine.rs:107-109 | steps keep every recorded deposit carrying an amount, so the "deposit should have an amount" error cannot occur |
| `EngineLemmas.RunPreservesWellFormed` | src/transaction_engine.rs:107-188 | the same holds over any run of transactions |
| `EngineLemmas.NewAccountWellFormed` | src/transaction_engine.rs:59-61 | the account a client gets on first reference has no deposit without an amount |
| `EngineLemmas.ApplyAllNeverDepositWithoutAmount` | src/transaction_engine.rs:107-188 | from well-formed accounts, an empty directory included, applying any log keeps every account well formed, and none of the three "deposit should have an amount" errors can end the run |
| `EngineLemmas.FirstIndexAfterAppend` | src/transaction_engine.rs:241-243 | appending an entry never moves an existing earliest match, and creates one only when the new entry has the wanted kind |
| `EngineLemmas.LookupStable` | src/transaction_engine.rs:236-244 | a lookup that succeeds keeps returning the same entry after any step |
| `EngineLemmas.RepeatedSettlementPasses` | src/transaction_engine.rs:120-184 | after an applied resolve or chargeback the same dispute and deposit are still found, so a repeat is not ignored |
| `EngineLemmas.DisputeThenResolve` | src/transaction_engine.rs:87-159 | dispute then resolve of a deposit restores held and total and never fails when held starts at or above zero |
| `EngineLemmas.UnsignedAmounts` | src/transaction_engine.rs:65-86 | deposits and withdrawals are applied whatever the sign of their amount: a negative deposit lowers total, and a negative withdrawal passes the funds check and raises total |
| `EngineLemmas.DisputeThenChargeback` | src/transaction_engine.rs:87-205 | dispute then chargeback of a deposit restores held, subtracts the deposit's amount from total and locks the account |
| `EngineLemmas.DepositsOnly` | src/transaction_engine.rs:65-72 | after deposits only, total has grown by the sum of their amounts and held and the lock are unchanged |
| `Dispatch.Parallelism` | src/main.rs:111-120 | a positive setting is the worker count; zero means the host parallelism; a negative setting subtracts from it, floored at one; the result is always at least one |
| `Dispatch.ShardOf` | src/main.rs:151 | the shard index is below the worker count and depends only on the client |
| `Dispatch.Shard` | src/main.rs:150-158 | a shard's transactions all route to that shard, and there are none for an index at or above the worker count |
| `Dispatch.NewPool` | src/main.rs:124-147 | a fresh pool has exactly the queues `0 .. parallelism-1`, all empty |
| `Dispatch.EmptyQueues` | src/main.rs:128-140 | exactly the indices below the count get an empty queue |
| `Dispatch.Submit` | src/main.rs:150-161 | with every worker present the queue lookup never fails; the transaction goes to the back of its shard's queue and no other queue changes |
| `Dispatch.SubmitAll` | src/main.rs:54-64 | submitting a log keeps the worker count and the set of queues |
| `Dispatch.SubmitAllRoutes` | src/main.rs:150-158 | submitting a log into a complete pool never fails and appends each shard's transactions to its queue in input order |
| `Dispatch.SubmitAllRoutesTo` | src/main.rs:150-158 | the same routing fact for one worker's queue: it grows by exactly that worker's shard of the log, in input order |
| `Dispatch.Outcome` | src/main.rs:167 | a worker run is a success exactly when it raised no error |
| `Dispatch.Wait` | src/main.rs:163-168 | waiting gives the result of applying the workers' queues one after the other; the drain loop of lines 166-167 itself is the helper `Dispatch.WaitFrom`, which `Dispatch.WaitIsSequential` relates to that sequential application |
| `Dispatch.WaitIsSequential` | src/main.rs:166-167 | draining workers `i ..` in order equals applying their concatenated queues, stopping at the first error |
| `Dispatch.Process` | src/main.rs:52-66 | a whole dispatch can fail only with a worker's ledger error, never in routing |
| `Sharding.ProjectAppend` | src/main.rs:150-158 | a client's subsequence of two logs joined is the join of its subsequences |
| `Sharding.ClientRunStep` | src/transaction_engine.rs:59-63 | applying one transaction to the map advances only its own client's run |
| `Sharding.ClientView` | src/transaction_engine.rs:59-63 | a sequential run succeeds exactly when every client's own run succeeds; it stores exactly the clients that were present or referenced, each with the account its own run reaches |
| `Sharding.Determinism` | src/main.rs:133-134 | logs that agree on every client's subsequence fail together and otherwise reach the same account map |
| `Sharding.SameClientRuns` | src/main.rs:133-134 | such logs give every client the same run of its own account |
| `Sharding.SameOutcome` | src/main.rs:133-134 | if one such log applies without error, so does the other |
| `Sharding.SameKeys` | src/main.rs:133-134 | two such logs that apply without error leave the same set of clients with accounts |
| `Sharding.SameAccounts` | src/main.rs:133-134 | and give each of those clients the same account |
| `Sharding.ProjectShard` | src/main.rs:151-158 | a shard holds all of a client's transactions in order when the client routes to it, and none otherwise |
| `Sharding.ProjectQueues` | src/main.rs:128-140 | the queues of workers `i ..` hold a client's transactions exactly when the client routes to one of them |
| `Sharding.QueuesKeepClientOrder` | src/main.rs:150-158 | routing a log into empty queues keeps every client's transactions in input order |
| `Sharding.ShardedEqualsSequential` | src/main.rs:128-168 | for every worker setting, the sharded run succeeds exactly when the sequential run does, and then gives the same account map |
| `Sharding.WorkerCountIrrelevant` | src/main.rs:111-120 | the final account map does not depend on the worker setting or the host parallelism |
| `Sharding.AnyShardInterleaving` | src/main.rs:128-138 | any schedule that keeps each shard's order fails exactly when the sequential run does, and otherwise reaches the same account map |
| `Examples.TwoClientsExample` | src/transaction_engine.rs:264-304 | two clients' deposits and withdrawals end at client 1: 1.5 available, 0 held, 1.5 total; client 2: 2 available, 0 held, 2 total; the overdrawing withdrawal is refused without aborting |
| `Examples.ChargebackExample` | src/transaction_engine.rs:160-205 | deposit 5, dispute, chargeback ends with 0 available, 0 held, 0 total and the account locked |
| `Examples.RepeatedResolveExample` | src/transaction_engine.rs:120-159 | resolving one id twice releases its deposit's amount twice, taking held from 10 to 0 |

## Left out

- Async reading of the input file, the header line and the line loop (`src/main.rs:36-64`) are I/O and are not modelled. `Dispatch.SubmitAll` stands in for the loop's submissions.
- Writing the CSV output (`src/main.rs:77-93`) is not modelled. Neither is the `"true"`/`"false"` rendering of the lock (`src/transaction_engine.rs:45-48`). Both are output formatting.
- Decoding a line into a transaction with the `csv`/serde libraries (`CsvParser::new`, `line_to_transaction`) is not modelled. It is foreign library behaviour, so transactions are taken as already decoded.
- Threads, the bounded `flume` channels, backpressure and the queue depth are not modelled, because their purpose is concurrency. The same goes for `spawn_blocking` and the concurrent map. Workers are modelled as queues drained one after another. `Sharding.AnyShardInterleaving` covers every schedule that keeps each shard's order.
- `Arc::try_unwrap` failing in `wait` (`src/main.rs:170-171`) is not modelled. Once every worker has been joined, no other reference remains.
- A send into the queue of a worker that has already failed makes the submission loop abort early (`src/main.rs:58`, `src/main.rs:158`). The model always finishes routing and reports the worker's error from `Dispatch.Wait`. Both runs fail and emit no snapshot, but the error value may differ.
- The host parallelism is a parameter `sys >= 1`, because it comes from a query to the operating system. The model types `sys` as `Dispatch.ISize`, so it assumes the host parallelism fits a signed machine-word integer and that its cast cannot wrap.
- Argument parsing (`src/cli.rs`) and logger setup (`src/setup.rs`) are plumbing and are not modelled.
- Log output from `warn!` and `info!` is not modelled. This includes the warning when held exceeds total and the warning when total goes negative. Neither warning changes state.
- Error message texts are not modelled; `Engine.Error` keeps only the kind of failure and its operands.
- The 96-bit range, scale and overflow of `rust_decimal` are not modelled; amounts are unbounded exact reals.
- Dispatch.ShardOf: the contract states that the index is in range, that it depends only on the client, and that it is the identity below the worker count. It does not restate the remainder itself, which is the body.
- Engine.ApplyAll: its contract states only that accounts are never removed. Its relation to the per-client runs is `Sharding.ClientView`.
- EngineLemmas.DocumentedEffects: the statements about available funds are conditional on held not exceeding total, and for deposits on a non-negative amount. Available is floored at zero, so the comments' unconditional wording does not hold of the code.

=== FILE: csv.dfy ===
/** The line pre-validator that runs before a line is handed to the record
    decoder. */
module Csv {
  import opened Wrappers

  /** A line that passed the pre-validator; it is wrapped unchanged. */
  datatype LikelyValidLine = LikelyValidLine(text: string)

  /** True when a character is in the 7-bit ASCII range. */
  predicate IsAsciiChar(ch: char) {
    ch as int < 0x80
  }

  /** Scans the line left to right for a non-ASCII character. */
  function IsAscii(line: string): (b: bool)
    ensures b <==> forall i :: 0 <= i < |line| ==> IsAsciiChar(line[i])
  {
    if |line| == 0 then true
    else IsAsciiChar(line[0]) && IsAscii(line[1..])
  }

  /** Accepts exactly the non-empty, all-ASCII lines, and wraps them without
      trimming or any other change. */
  function ValidLine(line: string): (r: Option<LikelyValidLine>)
    ensures r.Some? <==> |line| > 0 && forall i :: 0 <= i < |line| ==> IsAsciiChar(line[i])
    ensures r.Some? ==> r.value.text == line
  {
    if |line| == 0 || !IsAscii(line) then None
    else Some(LikelyValidLine(line))
  }

  /** The empty line is rejected. */
  lemma EmptyLineRejected()
    ensures ValidLine("") == None
  {
  }

  /** A line holding a non-ASCII character anywhere is rejected. */
  lemma NonAsciiRejected(line: string, i: int)
    requires 0 <= i < |line| && !IsAsciiChar(line[i])
    ensures ValidLine(line) == None
  {
  }

  /** No trimming happens: a line of spaces only is accepted as it is. */
  lemma BlankLineAccepted(line: string)
    requires |line| > 0
    requires forall i :: 0 <= i < |line| ==> line[i] == ' '
    ensures ValidLine(line) == Some(LikelyValidLine(line))
  {
  }
}

=== FILE: dispatch.dfy ===
/** The dispatcher, without threads: worker-count derivation, routing of each
    transaction to the queue of its shard, and the drain of those queues when
    the pool is waited on. */
module Dispatch {
  import opened Wrappers
  import opened Transactions
  import opened Engine

  /** A signed machine-word integer: the worker-count setting, and the host
      parallelism once cast to it. */
  type ISize = n: int | -0x8000_0000_0000_0000 <= n < 0x8000_0000_0000_0000

  /** The number of workers: the setting when positive, the host's
      parallelism `sys` when zero, and `sys` reduced by the setting's
      magnitude, but at least one, when negative. */
  function Parallelism(numWorkers: ISize, sys: ISize): (p: nat)
    requires sys >= 1
    ensures p >= 1
    ensures numWorkers > 0 ==> p == numWorkers
    ensures numWorkers <= 0 ==> p <= sys
    ensures numWorkers == 0 ==> p == sys
    ensures numWorkers < 0 && sys + numWorkers >= 1 ==> p == sys + numWorkers
    ensures numWorkers < 0 && sys + numWorkers < 1 ==> p == 1
  {
    if numWorkers < 0 then
      if 1 > sys + numWorkers then 1 else sys + numWorkers
    else if numWorkers == 0 then sys
    else numWorkers
  }

  /** The worker a client is routed to: a valid worker index that depends on
      the client alone; clients below the worker count get their own worker. */
  function ShardOf(client: ClientId, p: nat): (i: nat)
    requires p >= 1
    ensures i < p
    ensures client < p ==> i == client
  {
    client % p
  }

  /** The transactions of one shard, in submission order. */
  function Shard(txs: seq<Transaction>, p: nat, i: nat): (s: seq<Transaction>)
    requires p >= 1
    ensures |s| <= |txs|
    ensures forall j :: 0 <= j < |s| ==> ShardOf(s[j].client, p) == i
    ensures i >= p ==> s == []
    decreases |txs|
  {
    if |txs| == 0 then []
    else (if ShardOf(txs[0].client, p) == i then [txs[0]] else []) + Shard(txs[1..], p, i)
  }

  /** A pool of workers, each with the queue of transactions sent to it. */
  datatype Pool = Pool(parallelism: nat, queues: map<nat, seq<Transaction>>)

  /** Submission found no queue for the computed worker index. */
  datatype PoolError = NoWorker(index: nat)

  /** A queue exists for every worker index. */
  predicate HasAllWorkers(pool: Pool) {
    pool.parallelism >= 1 && forall i :: 0 <= i < pool.parallelism ==> i in pool.queues
  }

  /** A fresh pool: one empty queue per worker index `0 .. p-1`, and no other. */
  function NewPool(numWorkers: ISize, sys: ISize): (pool: Pool)
    requires sys >= 1
    ensures pool.parallelism == Parallelism(numWorkers, sys)
    ensures forall i: nat :: i in pool.queues <==> i < pool.parallelism
    ensures forall i :: i in pool.queues ==> pool.queues[i] == []
    ensures HasAllWorkers(pool)
  {
    var p := Parallelism(numWorkers, sys);
    Pool(p, EmptyQueues(p))
  }

  /** An empty queue for each index `0 .. p-1`. */
  function EmptyQueues(p: nat): (queues: map<nat, seq<Transaction>>)
    ensures forall i: nat :: i in queues <==> i < p
    ensures forall i :: i in queues ==> queues[i] == []
  {
    if p == 0 then map[] else EmptyQueues(p - 1)[p - 1 := []]
  }

  /** Sends a transaction to the back of its shard's queue; looking up the
      queue fails only when the pool lacks that worker. */
  function Submit(pool: Pool, tx: Transaction): (r: Result<Pool, PoolError>)
    requires pool.parallelism >= 1
    ensures HasAllWorkers(pool) ==> r.Success?
    ensures r.Failure? ==> r.error.index !in pool.queues
    ensures r.Success? ==> r.value.parallelism == pool.parallelism && r.value.queues.Keys == pool.queues.Keys
    ensures r.Success? ==> ShardOf(tx.client, pool.parallelism) in pool.queues
    ensures r.Success? ==> r.value.queues[ShardOf(tx.client, pool.parallelism)]
                            == pool.queues[ShardOf(tx.client, pool.parallelism)] + [tx]
    ensures r.Success? ==> forall i :: i in pool.queues && i != ShardOf(tx.client, pool.parallelism) ==>
                            r.value.queues[i] == pool.queues[i]
  {
    var i := ShardOf(tx.client, pool.parallelism);
    if i !in pool.queues then Failure(NoWorker(i))
    else Success(pool.(queues := pool.queues[i := pool.queues[i] + [tx]]))
  }

  /** Submits transactions in input order, stopping at the first failure. */
  function SubmitAll(pool: Pool, txs: seq<Transaction>): (r: Result<Pool, PoolError>)
    requires pool.parallelism >= 1
    ensures r.Success? ==> r.value.parallelism == pool.parallelism && r.value.queues.Keys == pool.queues.Keys
    decreases |txs|
  {
    if |txs| == 0 then Success(pool)
    else match Submit(pool, txs[0])
      case Failure(err) => Failure(err)
      case Success(pool') => SubmitAll(pool', txs[1..])
  }

  /** With every worker present, submission never fails and leaves each
      queue holding its shard's transactions in submission order. */
  lemma SubmitAllRoutes(pool: Pool, txs: seq<Transaction>)
    requires HasAllWorkers(pool)
    ensures SubmitAll(pool, txs).Success?
    ensures forall i :: i in pool.queues ==>
      SubmitAll(pool, txs).value.queues[i] == pool.queues[i] + Shard(txs, pool.parallelism, i)
  {
    forall i | i in pool.queues
      ensures SubmitAll(pool, txs).Success?
      ensures SubmitAll(pool, txs).value.queues[i] == pool.queues[i] + Shard(txs, pool.parallelism, i)
    {
      SubmitAllRoutesTo(pool, txs, i);
    }
    assert 0 in pool.queues;
  }

  /** The same, for one queue at a time. */
  lemma {:induction false} SubmitAllRoutesTo(pool: Pool, txs: seq<Transaction>, i: nat)
    requires HasAllWorkers(pool) && i in pool.queues
    ensures SubmitAll(pool, txs).Success?
    ensures SubmitAll(pool, txs).value.queues[i] == pool.queues[i] + Shard(txs, pool.parallelism, i)
    decreases |txs|
  {
    if |txs| > 0 {
      var p := pool.parallelism;
      var pool' := Submit(pool, txs[0]).value;
      assert HasAllWorkers(pool');
      SubmitAllRoutesTo(pool', txs[1..], i);
      assert SubmitAll(pool, txs) == SubmitAll(pool', txs[1..]);
      var head := if ShardOf(txs[0].client, p) == i then [txs[0]] else [];
      assert pool'.queues[i] == pool.queues[i] + head;
      assert Shard(txs, p, i) == head + Shard(txs[1..], p, i);
    }
  }

  /** What a finished worker run leaves: the directory, or its fatal error. */
  function Outcome(applied: Applied): (r: Result<Engine, Error>)
    ensures r.Success? <==> applied.error.None?
  {
    if applied.error.Some? then Failure(applied.error.value) else Success(applied.engine)
  }

  /** Drains the queues of workers `i ..` in worker order. Each worker
      applies its queue in order and stops at its first fatal error, which
      then becomes the result. */
  function WaitFrom(pool: Pool, e: Engine, i: nat): (r: Result<Engine, Error>)
    requires HasAllWorkers(pool)
    decreases pool.parallelism - i
  {
    if i >= pool.parallelism then Success(e)
    else
      var drained := ApplyAll(e, pool.queues[i]);
      if drained.error.Some? then Failure(drained.error.value)
      else WaitFrom(pool, drained.engine, i + 1)
  }

  /** Closes submission and waits for every worker: the final directory, or
      the error of a worker that failed. */
  function Wait(pool: Pool, e: Engine): (r: Result<Engine, Error>)
    requires HasAllWorkers(pool)
    ensures r == Outcome(ApplyAll(e, QueuesFrom(pool, 0)))
  {
    WaitIsSequential(pool, e, 0);
    WaitFrom(pool, e, 0)
  }

  /** The queues of workers `i ..`, concatenated in worker order. */
  function QueuesFrom(pool: Pool, i: nat): seq<Transaction>
    requires HasAllWorkers(pool)
    decreases pool.parallelism - i
  {
    if i >= pool.parallelism then [] else pool.queues[i] + QueuesFrom(pool, i + 1)
  }

  /** Waiting on the pool is the sequential application of its queues, one
      worker after the other. */
  lemma {:induction false} WaitIsSequential(pool: Pool, e: Engine, i: nat)
    requires HasAllWorkers(pool)
    ensures WaitFrom(pool, e, i) == Outcome(ApplyAll(e, QueuesFrom(pool, i)))
    decreases pool.parallelism - i
  {
    if i < pool.parallelism {
      ApplyAllAppend(e, pool.queues[i], QueuesFrom(pool, i + 1));
      var drained := ApplyAll(e, pool.queues[i]);
      if drained.error.None? {
        WaitIsSequential(pool, drained.engine, i + 1);
      }
    }
  }

  /** Why a whole dispatch failed. */
  datatype RunError = Ledger(error: Error) | Routing(poolError: PoolError)

  /** The whole dispatch: build a pool for the settings, route every
      transaction, then wait. Routing never fails, so the run fails only
      with a worker's ledger error. */
  function Process(e: Engine, txs: seq<Transaction>, numWorkers: ISize, sys: ISize): (r: Result<Engine, RunError>)
    requires sys >= 1
    ensures r.Failure? ==> r.error.Ledger?
  {
    var pool := NewPool(numWorkers, sys);
    SubmitAllRoutes(pool, txs);
    match SubmitAll(pool, txs)
    case Failure(err) => Failure(Routing(err))
    case Success(pool') =>
      match Wait(pool', e)
      case Failure(err) => Failure(Ledger(err))
      case Success(e') => Success(e')
  }
}

=== FILE: engine.dfy ===
/** The per-client account state machine and the directory of accounts. */
module Engine {
  import opened Wrappers
  import opened Transactions

  /** Whether an account is frozen; a chargeback freezes it. */
  datatype Lock = Unlocked | Locked

  /** A transaction as remembered in an account's history: its kind and its
      amount, without client or id. */
  datatype Entry = Entry(kind: Kind, amount: Option<real>)

  /** For each transaction id, the entries recorded under it, oldest first. */
  type History = map<TxId, seq<Entry>>

  /** One client's account. `held` is frozen by disputes; `total` is held plus
      available funds. */
  datatype Account = Account(held: real, total: real, locked: Lock, history: History)

  /** The account a client gets on first reference. */
  const NewAccount := Account(0.0, 0.0, Unlocked, map[])

  /** The fatal outcomes of applying one transaction. */
  datatype Error =
    | MissingAmount(tx: Transaction)
    | DepositWithoutAmount(id: TxId)
    | HeldExceeded(held: real, amount: real)

  /** Funds free for withdrawal: total minus held, never below zero. */
  function Available(a: Account): (r: real)
    ensures r >= 0.0 && r >= a.total - a.held
    ensures r == a.total - a.held || r == 0.0
    ensures a.held <= a.total ==> r + a.held == a.total
  {
    if a.total - a.held > 0.0 then a.total - a.held else 0.0
  }

  /** The entries recorded under an id; none when the id is unknown. */
  function Entries(h: History, id: TxId): seq<Entry> {
    if id in h then h[id] else []
  }

  /** Records one more entry under an id, leaving every other id alone. */
  function Append(h: History, id: TxId, e: Entry): (h': History)
    ensures h'.Keys == h.Keys + {id}
    ensures Entries(h', id) == Entries(h, id) + [e]
    ensures forall j :: j != id ==> Entries(h', j) == Entries(h, j)
  {
    h[id := Entries(h, id) + [e]]
  }

  /** The position of the earliest entry of kind `k`, if there is one. */
  function FirstIndexOfKind(entries: seq<Entry>, k: Kind): (r: Option<nat>)
    ensures r.Some? ==> r.value < |entries| && entries[r.value].kind == k
    ensures r.Some? ==> forall j :: 0 <= j < r.value ==> entries[j].kind != k
    ensures r.None? ==> forall j :: 0 <= j < |entries| ==> entries[j].kind != k
  {
    if |entries| == 0 then None
    else if entries[0].kind == k then Some(0)
    else match FirstIndexOfKind(entries[1..], k)
      case None => None
      case Some(j) => Some(j + 1)
  }

  /** The earliest entry of kind `k` recorded under an id. Since the search
      matches on the kind, the entry found always has that kind. */
  function FirstOfKind(h: History, id: TxId, k: Kind): (r: Option<Entry>)
    ensures r.Some? ==> r.value.kind == k && r.value in Entries(h, id)
    ensures r.Some? ==>
      exists i :: 0 <= i < |Entries(h, id)| && Entries(h, id)[i] == r.value &&
                  (forall j :: 0 <= j < i ==> Entries(h, id)[j].kind != k)
    ensures r.None? <==> forall j :: 0 <= j < |Entries(h, id)| ==> Entries(h, id)[j].kind != k
  {
    match FirstIndexOfKind(Entries(h, id), k)
    case None => None
    case Some(i) => Some(Entries(h, id)[i])
  }

  /** The deposit a resolve or chargeback acts on: it needs a dispute entry
      under the id, then the earliest deposit entry. */
  function DisputedDeposit(h: History, id: TxId): (r: Option<Entry>)
    ensures r.Some? <==>
      && (exists j :: 0 <= j < |Entries(h, id)| && Entries(h, id)[j].kind == Dispute)
      && (exists j :: 0 <= j < |Entries(h, id)| && Entries(h, id)[j].kind == Deposit)
    ensures r.Some? ==>
      && r.value.kind == Deposit
      && exists i :: 0 <= i < |Entries(h, id)| && Entries(h, id)[i] == r.value &&
                     (forall j :: 0 <= j < i ==> Entries(h, id)[j].kind != Deposit)
  {
    if FirstOfKind(h, id, Dispute).None? then None
    else FirstOfKind(h, id, Deposit)
  }

  /** The history entry a transaction leaves behind. */
  function EntryOf(tx: Transaction): Entry {
    Entry(tx.kind, tx.amount)
  }

  /** Appends the transaction to the account's history. */
  function Record(a: Account, tx: Transaction): (a': Account)
    ensures a'.held == a.held && a'.total == a.total && a'.locked == a.locked
    ensures a'.history == Append(a.history, tx.id, EntryOf(tx))
    ensures a' != a
  {
    var a' := a.(history := Append(a.history, tx.id, EntryOf(tx)));
    assert |Entries(a'.history, tx.id)| == |Entries(a.history, tx.id)| + 1;
    a'
  }

  /** Applies one transaction to one account. `Success(a)` with `a` unchanged
      means the transaction was ignored and not recorded. */
  function Step(a: Account, tx: Transaction): (r: Result<Account, Error>)
    // the lock only ever moves to Locked, and only a chargeback moves it
    ensures r.Success? && a.locked == Locked ==> r.value.locked == Locked
    ensures r.Success? && r.value.locked != a.locked ==> tx.kind == Chargeback && r.value.locked == Locked
    // a call either leaves the account alone or records exactly this transaction
    ensures r.Success? && r.value != a ==> r.value.history == Append(a.history, tx.id, EntryOf(tx))
    // only disputes, resolves and chargebacks are ever ignored
    ensures r.Success? && r.value == a ==> tx.kind != Deposit && tx.kind != Withdrawal
    // total moves only through deposits, withdrawals and chargebacks; held only
    // through disputes, resolves and chargebacks
    ensures r.Success? && r.value.total != a.total ==> tx.kind in {Deposit, Withdrawal, Chargeback}
    ensures r.Success? && r.value.held != a.held ==> tx.kind in {Dispute, Resolve, Chargeback}
    // an applied resolve or chargeback never leaves held negative
    ensures r.Success? && r.value != a && tx.kind in {Resolve, Chargeback} ==> r.value.held >= 0.0
    // the only fatal outcomes
    ensures r.Failure? && r.error.MissingAmount? ==> tx.kind in {Deposit, Withdrawal} && tx.amount.None?
    ensures r.Failure? && r.error.DepositWithoutAmount? ==> tx.kind in {Dispute, Resolve, Chargeback}
    ensures r.Failure? && r.error.HeldExceeded? ==> tx.kind in {Resolve, Chargeback} && a.held - r.error.amount < 0.0
  {
    match tx.kind
    case Deposit =>
      if tx.amount.None? then Failure(MissingAmount(tx))
      else Success(Record(a.(total := a.total + tx.amount.value), tx))
    case Withdrawal =>
      if tx.amount.None? then Failure(MissingAmount(tx))
      else if Available(a) < tx.amount.value then Success(Record(a, tx))
      else Success(Record(a.(total := a.total - tx.amount.value), tx))
    case Dispute =>
      (match FirstOfKind(a.history, tx.id, Deposit)
       case None => Success(a)
       case Some(deposit) =>
         if deposit.amount.None? then Failure(DepositWithoutAmount(tx.id))
         else Success(Record(a.(held := a.held + deposit.amount.value), tx)))
    case Resolve =>
      (match DisputedDeposit(a.history, tx.id)
       case None => Success(a)
       case Some(deposit) =>
         if deposit.amount.None? then Failure(DepositWithoutAmount(tx.id))
         else if a.held - deposit.amount.value < 0.0 then Failure(HeldExceeded(a.held, deposit.amount.value))
         else Success(Record(a.(held := a.held - deposit.amount.value), tx)))
    case Chargeback =>
      match DisputedDeposit(a.history, tx.id)
      case None => Success(a)
      case Some(deposit) =>
        if deposit.amount.None? then Failure(DepositWithoutAmount(tx.id))
        else if a.held - deposit.amount.value < 0.0 then Failure(HeldExceeded(a.held, deposit.amount.value))
        else
          var amount := deposit.amount.value;
          Success(Record(a.(held := a.held - amount, total := a.total - amount, locked := Locked), tx))
  }

  /** Applies a client's transactions to its account in order, stopping at the
      first fatal outcome. */
  function RunAccount(a: Account, txs: seq<Transaction>): (r: Result<Account, Error>)
    ensures r.Success? && a.locked == Locked ==> r.value.locked == Locked
    decreases |txs|
  {
    if |txs| == 0 then Success(a)
    else match Step(a, txs[0])
      case Failure(err) => Failure(err)
      case Success(a') => RunAccount(a', txs[1..])
  }

  /** The directory of accounts, keyed by client. */
  type Engine = map<ClientId, Account>

  /** A client's account, or a fresh one when the client has none yet. */
  function AccountOf(e: Engine, c: ClientId): Account {
    if c in e then e[c] else NewAccount
  }

  /** The directory after one call, and the fatal error it raised, if any. */
  datatype Applied = Applied(engine: Engine, error: Option<Error>)

  /** Applies one transaction to the directory. The client's account is
      created first, so it exists afterwards even when the transaction is
      ignored or fails; no other client's account is touched. */
  function AddTransaction(e: Engine, tx: Transaction): (r: Applied)
    ensures r.engine.Keys == e.Keys + {tx.client}
    ensures forall c :: c != tx.client ==> AccountOf(r.engine, c) == AccountOf(e, c)
    ensures r.error.None? <==> Step(AccountOf(e, tx.client), tx).Success?
    ensures r.error.None? ==> r.engine[tx.client] == Step(AccountOf(e, tx.client), tx).value
    ensures r.error.Some? ==> r.engine[tx.client] == AccountOf(e, tx.client)
  {
    var a := AccountOf(e, tx.client);
    match Step(a, tx)
    case Success(a') => Applied(e[tx.client := a'], None)
    case Failure(err) => Applied(e[tx.client := a], Some(err))
  }

  /** Applies transactions to the directory one after another, stopping at
      the first fatal error: the sequential reference behaviour. */
  function ApplyAll(e: Engine, txs: seq<Transaction>): (r: Applied)
    ensures e.Keys <= r.engine.Keys
    decreases |txs|
  {
    if |txs| == 0 then Applied(e, None)
    else
      var first := AddTransaction(e, txs[0]);
      if first.error.Some? then first
      else ApplyAll(first.engine, txs[1..])
  }

  /** Applying `a` then `b` is applying `a + b`, unless `a` already failed. */
  lemma {:induction false} ApplyAllAppend(e: Engine, a: seq<Transaction>, b: seq<Transaction>)
    ensures ApplyAll(e, a + b) ==
      if ApplyAll(e, a).error.Some? then ApplyAll(e, a) else ApplyAll(ApplyAll(e, a).engine, b)
    decreases |a|
  {
    if |a| == 0 {
      assert a + b == b;
    } else {
      assert (a + b)[0] == a[0];
      assert (a + b)[1..] == a[1..] + b;
      if AddTransaction(e, a[0]).error.None? {
        ApplyAllAppend(AddTransaction(e, a[0]).engine, a[1..], b);
      }
    }
  }

  /** One row of the final snapshot. */
  datatype Summary = Summary(client: ClientId, available: real, held: real, total: real, locked: Lock)

  /** The snapshot row of one stored account. */
  function Summarize(c: ClientId, a: Account): Summary {
    Summary(c, Available(a), a.held, a.total, a.locked)
  }

  /** The final snapshot: exactly one row per stored account, in no
      particular order. */
  method CurrentAccountStates(e: Engine) returns (rows: seq<Summary>)
    ensures |rows| == |e.Keys|
    ensures forall i :: 0 <= i < |rows| ==> rows[i].client in e && rows[i] == Summarize(rows[i].client, e[rows[i].client])
    ensures forall i, j :: 0 <= i < j < |rows| ==> rows[i].client != rows[j].client
    ensures forall c :: c in e ==> exists i :: 0 <= i < |rows| && rows[i].client == c
  {
    rows := [];
    var remaining := e.Keys;
    while remaining != {}
      invariant remaining <= e.Keys
      invariant |rows| + |remaining| == |e.Keys|
      invariant forall i :: 0 <= i < |rows| ==> rows[i].client in e.Keys - remaining && rows[i] == Summarize(rows[i].client, e[rows[i].client])
      invariant forall i, j :: 0 <= i < j < |rows| ==> rows[i].client != rows[j].client
      invariant forall c :: c in e.Keys - remaining ==> exists i :: 0 <= i < |rows| && rows[i].client == c
      decreases remaining
    {
      var c :| c in remaining;
      var rows' := rows + [Summarize(c, e[c])];
      forall d | d in e.Keys - (remaining - {c})
        ensures exists i :: 0 <= i < |rows'| && rows'[i].client == d
      {
        if d == c {
          assert rows'[|rows|].client == d;
        } else {
          assert d in e.Keys - remaining;
          var i :| 0 <= i < |rows| && rows[i].client == d;
          assert rows'[i].client == d;
        }
      }
      rows := rows';
      remaining := remaining - {c};
    }
    assert e.Keys - remaining == e.Keys;
  }
}

=== FILE: engine_lemmas.dfy ===
/** Properties of the account state machine: the documented effect of each
    kind, the stability of the first-match lookup, the dispute lifecycle,
    and the worked examples. */
module EngineLemmas {
  import opened Wrappers
  import opened Transactions
  import opened Engine

  /** A deposit with amount `x` adds exactly `x` to total and records itself;
      without an amount it is a fatal error. */
  lemma DepositEffect(a: Account, tx: Transaction)
    requires tx.kind == Deposit
    ensures Step(a, tx).Success? <==> tx.amount.Some?
    ensures Step(a, tx).Failure? ==> Step(a, tx).error == MissingAmount(tx)
    ensures tx.amount.Some? ==>
      var a' := Step(a, tx).value;
      a'.total == a.total + tx.amount.value && a'.held == a.held && a'.locked == a.locked
      && a'.history == Append(a.history, tx.id, Entry(Deposit, tx.amount))
  {
  }

  /** A withdrawal larger than the available funds leaves the balances alone
      but is still recorded; otherwise it subtracts its amount from total. */
  lemma WithdrawalEffect(a: Account, tx: Transaction)
    requires tx.kind == Withdrawal
    ensures Step(a, tx).Success? <==> tx.amount.Some?
    ensures Step(a, tx).Failure? ==> Step(a, tx).error == MissingAmount(tx)
    ensures tx.amount.Some? ==>
      var a' := Step(a, tx).value;
      && a'.held == a.held && a'.locked == a.locked
      && a'.history == Append(a.history, tx.id, Entry(Withdrawal, tx.amount))
      && (Available(a) < tx.amount.value ==> a'.total == a.total)
      && (Available(a) >= tx.amount.value ==> a'.total == a.total - tx.amount.value)
  {
  }

  /** A dispute holds the amount of the earliest deposit under its id, even
      when held then exceeds total; with no such deposit it is ignored. */
  lemma DisputeEffect(a: Account, tx: Transaction)
    requires tx.kind == Dispute
    ensures FirstOfKind(a.history, tx.id, Deposit).None? ==> Step(a, tx) == Success(a)
    ensures FirstOfKind(a.history, tx.id, Deposit).Some? ==>
      var deposit := FirstOfKind(a.history, tx.id, Deposit).value;
      && (deposit.amount.None? ==> Step(a, tx) == Failure(DepositWithoutAmount(tx.id)))
      && (deposit.amount.Some? ==>
            && Step(a, tx).Success?
            && Step(a, tx).value.held == a.held + deposit.amount.value
            && Step(a, tx).value.total == a.total
            && Step(a, tx).value.locked == a.locked
            && Step(a, tx).value.history == Append(a.history, tx.id, EntryOf(tx)))
  {
  }

  /** A resolve needs a dispute entry and a deposit entry under its id, else
      it is ignored; it is fatal when held would go negative, and otherwise
      releases the deposit's amount from held. */
  lemma ResolveEffect(a: Account, tx: Transaction)
    requires tx.kind == Resolve
    ensures FirstOfKind(a.history, tx.id, Dispute).None? ==> Step(a, tx) == Success(a)
    ensures FirstOfKind(a.history, tx.id, Deposit).None? ==> Step(a, tx) == Success(a)
    ensures FirstOfKind(a.history, tx.id, Dispute).Some? && FirstOfKind(a.history, tx.id, Deposit).Some? ==>
      var deposit := FirstOfKind(a.history, tx.id, Deposit).value;
      && (deposit.amount.None? ==> Step(a, tx) == Failure(DepositWithoutAmount(tx.id)))
      && (deposit.amount.Some? && a.held - deposit.amount.value < 0.0 ==>
            Step(a, tx) == Failure(HeldExceeded(a.held, deposit.amount.value)))
      && (deposit.amount.Some? && a.held - deposit.amount.value >= 0.0 ==>
            && Step(a, tx).Success?
            && Step(a, tx).value.held == a.held - deposit.amount.value
            && Step(a, tx).value.total == a.total
            && Step(a, tx).value.locked == a.locked
            && Step(a, tx).value.history == Append(a.history, tx.id, EntryOf(tx)))
  {
  }

  /** A chargeback has the preconditions and the fatal case of a resolve;
      otherwise it removes the deposit's amount from held and from total and
      freezes the account, even when total goes negative. */
  lemma ChargebackEffect(a: Account, tx: Transaction)
    requires tx.kind == Chargeback
    ensures FirstOfKind(a.history, tx.id, Dispute).None? ==> Step(a, tx) == Success(a)
    ensures FirstOfKind(a.history, tx.id, Deposit).None? ==> Step(a, tx) == Success(a)
    ensures FirstOfKind(a.history, tx.id, Dispute).Some? && FirstOfKind(a.history, tx.id, Deposit).Some? ==>
      var deposit := FirstOfKind(a.history, tx.id, Deposit).value;
      && (deposit.amount.None? ==> Step(a, tx) == Failure(DepositWithoutAmount(tx.id)))
      && (deposit.amount.Some? && a.held - deposit.amount.value < 0.0 ==>
            Step(a, tx) == Failure(HeldExceeded(a.held, deposit.amount.value)))
      && (deposit.amount.Some? && a.held - deposit.amount.value >= 0.0 ==>
            && Step(a, tx).Success?
            && Step(a, tx).value.held == a.held - deposit.amount.value
            && Step(a, tx).value.total == a.total - deposit.amount.value
            && Step(a, tx).value.locked == Locked
            && Step(a, tx).value.history == Append(a.history, tx.id, EntryOf(tx)))
  {
  }

  /** The documented effect of each kind, for a step that is applied and
      recorded. `x` is the amount of the deposit a dispute, resolve or
      chargeback acts on. The statements about available funds hold while
      held does not exceed total, because available is floored at zero. */
  lemma DocumentedEffects(a: Account, tx: Transaction)
    requires Step(a, tx).Success? && Step(a, tx).value != a
    ensures
      var a' := Step(a, tx).value;
      && (tx.kind == Deposit ==>
            && a'.total == a.total + tx.amount.value
            && (a.held <= a.total && tx.amount.value >= 0.0 ==> Available(a') == Available(a) + tx.amount.value))
      && (tx.kind == Withdrawal && Available(a) >= tx.amount.value ==>
            && a'.total == a.total - tx.amount.value
            && (a.held <= a.total ==> Available(a') == Available(a) - tx.amount.value))
      && (tx.kind in {Dispute, Resolve, Chargeback} ==>
            var x := FirstOfKind(a.history, tx.id, Deposit).value.amount.value;
            && (tx.kind == Dispute ==>
                  && a'.held == a.held + x && a'.total == a.total
                  && (a.held <= a.total && a'.held <= a'.total ==> Available(a') == Available(a) - x))
            && (tx.kind == Resolve ==>
                  && a'.held == a.held - x && a'.total == a.total
                  && (a.held <= a.total && a'.held <= a'.total ==> Available(a') == Available(a) + x))
            && (tx.kind == Chargeback ==>
                  && a'.held == a.held - x && a'.total == a.total - x && a'.locked == Locked
                  && Available(a') == Available(a)))
  {
  }

  /** The lock is never read: the outcome of a step does not depend on it,
      so a frozen account still takes deposits and withdrawals. */
  lemma LockNeverConsulted(a: Account, tx: Transaction, l: Lock)
    ensures Step(a.(locked := l), tx).Success? <==> Step(a, tx).Success?
    ensures Step(a, tx).Failure? ==> Step(a.(locked := l), tx).error == Step(a, tx).error
    ensures Step(a, tx).Success? ==>
      Step(a.(locked := l), tx).value.(locked := Unlocked) == Step(a, tx).value.(locked := Unlocked)
  {
    match tx.kind
    case Deposit =>
    case Withdrawal =>
    case Dispute =>
    case Resolve =>
    case Chargeback =>
  }

  /** Amounts are never checked for sign: a negative deposit is applied and
      lowers total, and a negative withdrawal always passes the funds check
      and raises total. */
  lemma UnsignedAmounts(a: Account, tx: Transaction)
    requires tx.kind in {Deposit, Withdrawal} && tx.amount.Some? && tx.amount.value < 0.0
    ensures Step(a, tx).Success? && Step(a, tx).value != a
    ensures tx.kind == Deposit ==> Step(a, tx).value.total < a.total
    ensures tx.kind == Withdrawal ==> Step(a, tx).value.total > a.total
  {
  }

  /** Every recorded deposit carries an amount. */
  ghost predicate WellFormed(a: Account) {
    forall id, i {:trigger a.history[id][i]} ::
      id in a.history && 0 <= i < |a.history[id]| && a.history[id][i].kind == Deposit ==>
        a.history[id][i].amount.Some?
  }

  /** Steps keep every recorded deposit carrying an amount, and from such an
      account the "deposit should have an amount" error cannot arise. */
  lemma StepPreservesWellFormed(a: Account, tx: Transaction)
    requires WellFormed(a)
    ensures Step(a, tx).Success? ==> WellFormed(Step(a, tx).value)
    ensures Step(a, tx).Failure? ==> !Step(a, tx).error.DepositWithoutAmount?
  {
    var dep := FirstOfKind(a.history, tx.id, Deposit);
    if dep.Some? {
      var i :| 0 <= i < |Entries(a.history, tx.id)| && Entries(a.history, tx.id)[i] == dep.value;
      assert a.history[tx.id][i] == dep.value;
    }
    var r: Result<Account, Error> := Step(a, tx);
    if r.Success? && r.value != a {
      var h': History := r.value.history;
      forall id: TxId, i: int | id in h' && 0 <= i < |h'[id]| && h'[id][i].kind == Deposit
        ensures h'[id][i].amount.Some?
      {
        assert h'[id] == Entries(h', id);
        if id != tx.id {
          assert h'[id] == a.history[id];
        } else if i < |Entries(a.history, id)| {
          assert h'[id][i] == a.history[id][i];
        } else {
          assert h'[id][i] == EntryOf(tx);
        }
      }
    }
  }

  /** The account a client gets on first reference is well formed. */
  lemma NewAccountWellFormed()
    ensures WellFormed(NewAccount)
  {
  }

  /** Every account a run of transactions reaches from a well-formed one is
      well formed. */
  lemma {:induction false} RunPreservesWellFormed(a: Account, txs: seq<Transaction>)
    requires WellFormed(a)
    ensures RunAccount(a, txs).Success? ==> WellFormed(RunAccount(a, txs).value)
    ensures RunAccount(a, txs).Failure? ==> !RunAccount(a, txs).error.DepositWithoutAmount?
    decreases |txs|
  {
    if |txs| > 0 {
      StepPreservesWellFormed(a, txs[0]);
      if Step(a, txs[0]).Success? {
        RunPreservesWellFormed(Step(a, txs[0]).value, txs[1..]);
      }
    }
  }

  /** Over the whole directory: from well-formed accounts (an empty directory
      included), applying any log keeps every account well formed, and the
      "deposit should have an amount" errors never end the run. */
  lemma {:induction false} ApplyAllNeverDepositWithoutAmount(e: Engine, txs: seq<Transaction>)
    requires forall c :: c in e ==> WellFormed(e[c])
    ensures forall c :: c in ApplyAll(e, txs).engine ==> WellFormed(ApplyAll(e, txs).engine[c])
    ensures ApplyAll(e, txs).error.Some? ==> !ApplyAll(e, txs).error.value.DepositWithoutAmount?
    decreases |txs|
  {
    if |txs| > 0 {
      var tx := txs[0];
      var a := AccountOf(e, tx.client);
      NewAccountWellFormed();
      assert WellFormed(a);
      StepPreservesWellFormed(a, tx);
      var first := AddTransaction(e, tx);
      forall c | c in first.engine
        ensures WellFormed(first.engine[c])
      {
        if c != tx.client {
          assert AccountOf(first.engine, c) == AccountOf(e, c);
        }
      }
      if first.error.None? {
        ApplyAllNeverDepositWithoutAmount(first.engine, txs[1..]);
      }
    }
  }

  /** Appending an entry never moves an earliest match that already exists,
      and creates one exactly when the new entry has the kind sought. */
  lemma {:induction false} FirstIndexAfterAppend(s: seq<Entry>, e: Entry, k: Kind)
    ensures FirstIndexOfKind(s, k).Some? ==> FirstIndexOfKind(s + [e], k) == FirstIndexOfKind(s, k)
    ensures FirstIndexOfKind(s, k).None? ==>
      FirstIndexOfKind(s + [e], k) == (if e.kind == k then Some(|s|) else None)
  {
    if |s| > 0 {
      assert (s + [e])[1..] == s[1..] + [e];
      FirstIndexAfterAppend(s[1..], e, k);
    }
  }

  /** History only ever grows at its ends, so a lookup that succeeded keeps
      returning the same entry after any step. This is why an old dispute
      entry lets a second resolve or chargeback through, and why a charged
      back deposit can be disputed again. */
  lemma LookupStable(a: Account, tx: Transaction, id: TxId, k: Kind)
    requires Step(a, tx).Success?
    requires FirstOfKind(a.history, id, k).Some?
    ensures FirstOfKind(Step(a, tx).value.history, id, k) == FirstOfKind(a.history, id, k)
  {
    var a' := Step(a, tx).value;
    if a' != a && id == tx.id {
      FirstIndexAfterAppend(Entries(a.history, id), EntryOf(tx), k);
    }
  }

  /** A repeated resolve or chargeback finds the same dispute and deposit
      again and so is not ignored. */
  lemma RepeatedSettlementPasses(a: Account, tx: Transaction)
    requires tx.kind in {Resolve, Chargeback}
    requires Step(a, tx).Success? && Step(a, tx).value != a
    ensures DisputedDeposit(Step(a, tx).value.history, tx.id) == DisputedDeposit(a.history, tx.id)
    ensures DisputedDeposit(Step(a, tx).value.history, tx.id).Some?
  {
    LookupStable(a, tx, tx.id, Dispute);
    LookupStable(a, tx, tx.id, Deposit);
  }

  /** Dispute then resolve of a deposit of `x` releases it again: held and
      total end where they started and held never goes negative. */
  lemma DisputeThenResolve(a: Account, dispute: Transaction, resolve: Transaction, x: real)
    requires dispute.kind == Dispute && resolve.kind == Resolve && dispute.id == resolve.id
    requires FirstOfKind(a.history, dispute.id, Deposit) == Some(Entry(Deposit, Some(x)))
    requires a.held >= 0.0
    ensures Step(a, dispute).Success?
    ensures Step(a, dispute).value.held == a.held + x
    ensures Step(Step(a, dispute).value, resolve).Success?
    ensures
      var a2 := Step(Step(a, dispute).value, resolve).value;
      a2.held == a.held && a2.total == a.total && a2.locked == a.locked
  {
    DisputeEffect(a, dispute);
    var a1 := Step(a, dispute).value;
    LookupStable(a, dispute, dispute.id, Deposit);
    FirstIndexAfterAppend(Entries(a.history, dispute.id), EntryOf(dispute), Dispute);
    assert FirstOfKind(a1.history, resolve.id, Dispute).Some?;
    ResolveEffect(a1, resolve);
  }

  /** Dispute then chargeback of a deposit of `x` returns held to where it
      started, subtracts `x` from total and freezes the account. */
  lemma DisputeThenChargeback(a: Account, dispute: Transaction, chargeback: Transaction, x: real)
    requires dispute.kind == Dispute && chargeback.kind == Chargeback && dispute.id == chargeback.id
    requires FirstOfKind(a.history, dispute.id, Deposit) == Some(Entry(Deposit, Some(x)))
    requires a.held >= 0.0
    ensures Step(a, dispute).Success?
    ensures Step(Step(a, dispute).value, chargeback).Success?
    ensures
      var a2 := Step(Step(a, dispute).value, chargeback).value;
      a2.held == a.held && a2.total == a.total - x && a2.locked == Locked
  {
    DisputeEffect(a, dispute);
    var a1 := Step(a, dispute).value;
    LookupStable(a, dispute, dispute.id, Deposit);
    FirstIndexAfterAppend(Entries(a.history, dispute.id), EntryOf(dispute), Dispute);
    assert FirstOfKind(a1.history, chargeback.id, Dispute).Some?;
    ChargebackEffect(a1, chargeback);
  }

  /** The sum of the amounts of a run of transactions with amounts. */
  function SumAmounts(txs: seq<Transaction>): real
    requires forall i :: 0 <= i < |txs| ==> txs[i].amount.Some?
  {
    if |txs| == 0 then 0.0 else txs[0].amount.value + SumAmounts(txs[1..])
  }

  /** After deposits only, total has grown by exactly the deposited sum and
      held and the lock are unchanged. */
  lemma {:induction false} DepositsOnly(a: Account, txs: seq<Transaction>)
    requires forall i :: 0 <= i < |txs| ==> txs[i].kind == Deposit && txs[i].amount.Some?
    ensures RunAccount(a, txs).Success?
    ensures RunAccount(a, txs).value.total == a.total + SumAmounts(txs)
    ensures RunAccount(a, txs).value.held == a.held
    ensures RunAccount(a, txs).value.locked == a.locked
    decreases |txs|
  {
    if |txs| > 0 {
      DepositsOnly(Step(a, txs[0]).value, txs[1..]);
    }
  }
}

=== FILE: examples.dfy ===
/** The end-to-end scenarios the system documents, worked through the model. */
module Examples {
  import opened Wrappers
  import opened Transactions
  import opened Engine
  import opened Sharding

  /** Two clients, deposits and withdrawals; the second withdrawal of client
      2 exceeds its funds and is refused without aborting the run. Each
      account is computed from its own client's transactions alone. */
  lemma TwoClientsExample(txs: seq<Transaction>)
    requires txs == [
      Transaction(Deposit, 1, 1, Some(1.0)),
      Transaction(Deposit, 2, 2, Some(2.0)),
      Transaction(Deposit, 1, 3, Some(2.0)),
      Transaction(Withdrawal, 1, 4, Some(1.5)),
      Transaction(Withdrawal, 2, 5, Some(3.0))]
    ensures
      var r := ApplyAll(map[], txs);
      && r.error.None?
      && r.engine.Keys == {1, 2}
      && Summarize(1, r.engine[1]) == Summary(1, 1.5, 0.0, 1.5, Unlocked)
      && Summarize(2, r.engine[2]) == Summary(2, 2.0, 0.0, 2.0, Unlocked)
  {
    var e: Engine := map[];
    TwoClientsRuns(txs);
    ClientView(e, txs);
    var r := ApplyAll(e, txs);
    assert r.error.None?;
    assert r.engine.Keys == {1, 2};
  }

  /** Each client's run over the two-client log, from an empty engine. */
  lemma TwoClientsRuns(txs: seq<Transaction>)
    requires txs == [
      Transaction(Deposit, 1, 1, Some(1.0)),
      Transaction(Deposit, 2, 2, Some(2.0)),
      Transaction(Deposit, 1, 3, Some(2.0)),
      Transaction(Withdrawal, 1, 4, Some(1.5)),
      Transaction(Withdrawal, 2, 5, Some(3.0))]
    ensures forall c :: ClientRun(map[], txs, c).Success? && (Project(txs, c) != [] <==> c == 1 || c == 2)
    ensures Summarize(1, ClientRun(map[], txs, 1).value) == Summary(1, 1.5, 0.0, 1.5, Unlocked)
    ensures Summarize(2, ClientRun(map[], txs, 2).value) == Summary(2, 2.0, 0.0, 2.0, Unlocked)
  {
    var e: Engine := map[];
    forall c
      ensures ClientRun(e, txs, c).Success? && (Project(txs, c) != [] <==> c == 1 || c == 2)
    {
      TwoClientsProjection(txs, c);
      if c == 1 {
        Client1Run(AccountOf(e, 1), Project(txs, 1));
      } else if c == 2 {
        Client2Run(AccountOf(e, 2), Project(txs, 2));
      } else {
        assert ClientRun(e, txs, c) == RunAccount(NewAccount, []);
      }
    }
    TwoClientsProjection(txs, 1);
    Client1Run(AccountOf(e, 1), Project(txs, 1));
    TwoClientsProjection(txs, 2);
    Client2Run(AccountOf(e, 2), Project(txs, 2));
  }

  /** The example log split by client. */
  lemma TwoClientsProjection(txs: seq<Transaction>, c: ClientId)
    requires |txs| == 5
    requires txs[0].client == 1 && txs[1].client == 2 && txs[2].client == 1
    requires txs[3].client == 1 && txs[4].client == 2
    ensures Project(txs, c) == if c == 1 then [txs[0], txs[2], txs[3]] else if c == 2 then [txs[1], txs[4]] else []
  {
    var t0, t1, t2, t3, t4 := txs[0], txs[1], txs[2], txs[3], txs[4];
    assert txs == [t0, t1, t2, t3, t4];
    assert [t4][1..] == [];
    assert [t3, t4][1..] == [t4];
    assert [t2, t3, t4][1..] == [t3, t4];
    assert [t1, t2, t3, t4][1..] == [t2, t3, t4];
    assert txs[1..] == [t1, t2, t3, t4];
    assert Project([t4], c) == if c == 2 then [t4] else [];
    assert Project([t3, t4], c) == if c == 1 then [t3] else if c == 2 then [t4] else [];
    assert Project([t2, t3, t4], c) == if c == 1 then [t2, t3] else if c == 2 then [t4] else [];
    assert Project([t1, t2, t3, t4], c) == if c == 1 then [t2, t3] else if c == 2 then [t1, t4] else [];
  }

  /** Client 1 deposits 1 and 2, then withdraws 1.5. */
  lemma Client1Run(a: Account, txs: seq<Transaction>)
    requires a == NewAccount
    requires txs == [
      Transaction(Deposit, 1, 1, Some(1.0)),
      Transaction(Deposit, 1, 3, Some(2.0)),
      Transaction(Withdrawal, 1, 4, Some(1.5))]
    ensures RunAccount(a, txs).Success?
    ensures Summarize(1, RunAccount(a, txs).value) == Summary(1, 1.5, 0.0, 1.5, Unlocked)
  {
    var a1 := Step(a, txs[0]).value;
    var a2 := Step(a1, txs[1]).value;
    assert Available(a2) == 3.0;
    assert RunAccount(a, txs) == RunAccount(a1, txs[1..]);
    assert RunAccount(a1, txs[1..]) == RunAccount(a2, txs[2..]);
  }

  /** Client 2 deposits 2, then tries to withdraw 3. */
  lemma Client2Run(a: Account, txs: seq<Transaction>)
    requires a == NewAccount
    requires txs == [
      Transaction(Deposit, 2, 2, Some(2.0)),
      Transaction(Withdrawal, 2, 5, Some(3.0))]
    ensures RunAccount(a, txs).Success?
    ensures Summarize(2, RunAccount(a, txs).value) == Summary(2, 2.0, 0.0, 2.0, Unlocked)
  {
    var a1 := Step(a, txs[0]).value;
    assert Available(a1) == 2.0;
    assert RunAccount(a, txs) == RunAccount(a1, txs[1..]);
  }

  /** Deposit 5, dispute it, charge it back: nothing is left and the account
      is frozen. */
  lemma ChargebackExample(txs: seq<Transaction>)
    requires txs == [
      Transaction(Deposit, 1, 1, Some(5.0)),
      Transaction(Dispute, 1, 1, None),
      Transaction(Chargeback, 1, 1, None)]
    ensures
      var r := ApplyAll(map[], txs);
      && r.error.None?
      && r.engine.Keys == {1}
      && Summarize(1, r.engine[1]) == Summary(1, 0.0, 0.0, 0.0, Locked)
  {
    var e: Engine := map[];
    assert forall c :: ClientRun(e, txs, c).Success? && (Project(txs, c) != [] <==> c == 1) by {
      forall c
        ensures ClientRun(e, txs, c).Success? && (Project(txs, c) != [] <==> c == 1)
      {
        OneClientProjection(txs, 1, c);
        if c == 1 {
          ChargebackRun(AccountOf(e, 1), txs);
        } else {
          assert ClientRun(e, txs, c) == RunAccount(NewAccount, []);
        }
      }
    }
    assert Summarize(1, ClientRun(e, txs, 1).value) == Summary(1, 0.0, 0.0, 0.0, Locked) by {
      OneClientProjection(txs, 1, 1);
      ChargebackRun(AccountOf(e, 1), txs);
    }
    ClientView(e, txs);
    var r := ApplyAll(e, txs);
    assert r.error.None?;
    assert r.engine.Keys == {1};
  }

  /** A log of one client's transactions is that client's whole subsequence. */
  lemma {:induction false} OneClientProjection(txs: seq<Transaction>, owner: ClientId, c: ClientId)
    requires forall i :: 0 <= i < |txs| ==> txs[i].client == owner
    ensures Project(txs, c) == if c == owner then txs else []
    decreases |txs|
  {
    if |txs| > 0 {
      OneClientProjection(txs[1..], owner, c);
      if c == owner {
        assert [txs[0]] + txs[1..] == txs;
      }
    }
  }

  /** The account-level run behind the chargeback example. */
  lemma ChargebackRun(a: Account, txs: seq<Transaction>)
    requires a == NewAccount
    requires txs == [
      Transaction(Deposit, 1, 1, Some(5.0)),
      Transaction(Dispute, 1, 1, None),
      Transaction(Chargeback, 1, 1, None)]
    ensures RunAccount(a, txs).Success?
    ensures Summarize(1, RunAccount(a, txs).value) == Summary(1, 0.0, 0.0, 0.0, Locked)
  {
    ChargebackDepositStep(a, txs[0]);
    ChargebackDisputeStep(Deposited, txs[1]);
    ChargebackFinalStep(Disputed, txs[2]);
    assert RunAccount(a, txs) == RunAccount(Deposited, txs[1..]);
    assert RunAccount(Deposited, txs[1..]) == RunAccount(Disputed, txs[2..]);
  }

  /** Client 1 after depositing 5 under transaction 1. */
  const Deposited := Account(0.0, 5.0, Unlocked, map[1 := [Entry(Deposit, Some(5.0))]])

  /** Client 1 after disputing that deposit. */
  const Disputed := Account(5.0, 5.0, Unlocked, map[1 := [Entry(Deposit, Some(5.0)), Entry(Dispute, None)]])

  /** The deposit credits 5 and is recorded. */
  lemma ChargebackDepositStep(a: Account, tx: Transaction)
    requires a == NewAccount && tx == Transaction(Deposit, 1, 1, Some(5.0))
    ensures Step(a, tx) == Success(Deposited)
  {
    assert Entries(a.history, 1) + [EntryOf(tx)] == [EntryOf(tx)];
  }

  /** The dispute finds the deposit and holds its 5. */
  lemma ChargebackDisputeStep(a: Account, tx: Transaction)
    requires a == Deposited && tx == Transaction(Dispute, 1, 1, None)
    ensures Step(a, tx) == Success(Disputed)
  {
    assert FirstOfKind(a.history, 1, Deposit) == Some(Entry(Deposit, Some(5.0)));
    assert Entries(a.history, 1) + [EntryOf(tx)] == Disputed.history[1];
    assert Append(a.history, 1, EntryOf(tx)) == Disputed.history;
  }

  /** The chargeback finds dispute and deposit, removes the 5 and locks. */
  lemma ChargebackFinalStep(a: Account, tx: Transaction)
    requires a == Disputed && tx == Transaction(Chargeback, 1, 1, None)
    ensures Step(a, tx).Success?
    ensures Summarize(1, Step(a, tx).value) == Summary(1, 0.0, 0.0, 0.0, Locked)
  {
  }

  /** The lookup finds the old dispute entry again, so resolving the same
      id twice releases the deposit's amount twice. Here two deposits of 5
      are both disputed; the second resolve of transaction 1 releases the
      hold that belongs to transaction 2. */
  lemma RepeatedResolveExample()
    ensures
      var disputed := [Entry(Deposit, Some(5.0)), Entry(Dispute, None)];
      var a := Account(10.0, 10.0, Unlocked, map[1 := disputed, 2 := disputed]);
      var resolve := Transaction(Resolve, 1, 1, None);
      && Step(a, resolve).Success?
      && Step(a, resolve).value.held == 5.0
      && Step(Step(a, resolve).value, resolve).Success?
      && Step(Step(a, resolve).value, resolve).value.held == 0.0
      && Step(Step(a, resolve).value, resolve).value.total == 10.0
  {
    var disputed := [Entry(Deposit, Some(5.0)), Entry(Dispute, None)];
    var a := Account(10.0, 10.0, Unlocked, map[1 := disputed, 2 := disputed]);
    var resolve := Transaction(Resolve, 1, 1, None);
    assert FirstOfKind(a.history, 1, Dispute).Some?;
    assert FirstOfKind(a.history, 1, Deposit) == Some(Entry(Deposit, Some(5.0)));
    var a1 := Step(a, resolve).value;
    assert a1.history[1] == disputed + [Entry(Resolve, None)];
    assert Entries(a1.history, 1)[1].kind == Dispute;
    assert FirstOfKind(a1.history, 1, Dispute).Some?;
    assert FirstOfKind(a1.history, 1, Deposit) == Some(Entry(Deposit, Some(5.0)));
  }
}

=== FILE: sharding.dfy ===
/** Why sharding by client is safe: every account evolves only through its
    own client's transactions, in their order, so any schedule that keeps
    each shard's order reaches the same directory as applying the input
    sequentially, whatever the number of workers. */
module Sharding {
  import opened Wrappers
  import opened Transactions
  import opened Engine
  import opened Dispatch

  /** The transactions of one client, in input order. */
  function Project(txs: seq<Transaction>, c: ClientId): (s: seq<Transaction>)
    ensures |s| <= |txs|
    ensures forall j :: 0 <= j < |s| ==> s[j].client == c
    decreases |txs|
  {
    if |txs| == 0 then []
    else (if txs[0].client == c then [txs[0]] else []) + Project(txs[1..], c)
  }

  /** What one client's account becomes when only that client's
      transactions are applied to it. */
  function ClientRun(e: Engine, txs: seq<Transaction>, c: ClientId): Result<Account, Error> {
    RunAccount(AccountOf(e, c), Project(txs, c))
  }

  lemma {:induction false} ProjectAppend(a: seq<Transaction>, b: seq<Transaction>, c: ClientId)
    ensures Project(a + b, c) == Project(a, c) + Project(b, c)
    decreases |a|
  {
    if |a| == 0 {
      assert a + b == b;
    } else {
      assert (a + b)[0] == a[0];
      assert (a + b)[1..] == a[1..] + b;
      ProjectAppend(a[1..], b, c);
    }
  }

  /** Applying the first transaction to the directory advances exactly the
      per-client run of its own client. */
  lemma ClientRunStep(e: Engine, txs: seq<Transaction>, c: ClientId)
    requires |txs| > 0 && AddTransaction(e, txs[0]).error.None?
    ensures ClientRun(e, txs, c) == ClientRun(AddTransaction(e, txs[0]).engine, txs[1..], c)
  {
    var tx := txs[0];
    var rest := Project(txs[1..], c);
    if c == tx.client {
      assert Project(txs, c) == [tx] + rest;
      assert ([tx] + rest)[0] == tx;
      assert ([tx] + rest)[1..] == rest;
      assert AccountOf(AddTransaction(e, tx).engine, c) == Step(AccountOf(e, c), tx).value;
    } else {
      assert Project(txs, c) == [] + rest == rest;
    }
  }

  /** Per-client isolation over a whole run: the sequential run succeeds
      exactly when every client's own run succeeds, it stores exactly the
      clients that were there or were referenced, and each stored account is
      the result of that client's own run. */
  lemma {:induction false} ClientView(e: Engine, txs: seq<Transaction>)
    ensures ApplyAll(e, txs).error.None? <==> forall c :: ClientRun(e, txs, c).Success?
    ensures ApplyAll(e, txs).error.None? ==>
      forall c :: c in ApplyAll(e, txs).engine <==> c in e || Project(txs, c) != []
    ensures ApplyAll(e, txs).error.None? ==>
      forall c :: c in ApplyAll(e, txs).engine ==> ApplyAll(e, txs).engine[c] == ClientRun(e, txs, c).value
    decreases |txs|
  {
    if |txs| == 0 {
      assert forall c :: ClientRun(e, txs, c) == Success(AccountOf(e, c));
    } else {
      var tx := txs[0];
      var first := AddTransaction(e, tx);
      var rest := Project(txs[1..], tx.client);
      assert Project(txs, tx.client) == [tx] + rest;
      if first.error.Some? {
        assert ClientRun(e, txs, tx.client).Failure?;
      } else {
        ClientView(first.engine, txs[1..]);
        forall c
          ensures ClientRun(e, txs, c) == ClientRun(first.engine, txs[1..], c)
        {
          ClientRunStep(e, txs, c);
        }
      }
    }
  }

  /** Two inputs that agree on every client's subsequence. */
  ghost predicate SameClientOrder(xs: seq<Transaction>, ys: seq<Transaction>) {
    forall c :: Project(xs, c) == Project(ys, c)
  }

  /** Inputs that agree on every client's subsequence fail together and
      otherwise reach the same directory. */
  lemma Determinism(e: Engine, xs: seq<Transaction>, ys: seq<Transaction>)
    requires SameClientOrder(xs, ys)
    ensures ApplyAll(e, xs).error.None? <==> ApplyAll(e, ys).error.None?
    ensures ApplyAll(e, xs).error.None? ==> ApplyAll(e, xs).engine == ApplyAll(e, ys).engine
  {
    SameOutcome(e, xs, ys);
    SameOutcome(e, ys, xs);
    if ApplyAll(e, xs).error.None? {
      SameKeys(e, xs, ys);
      SameAccounts(e, xs, ys);
    }
  }

  /** Logs that agree on every client's subsequence give every client the same run. */
  lemma SameClientRuns(e: Engine, xs: seq<Transaction>, ys: seq<Transaction>)
    requires SameClientOrder(xs, ys)
    ensures forall c :: ClientRun(e, xs, c) == ClientRun(e, ys, c)
  {
    forall c
      ensures ClientRun(e, xs, c) == ClientRun(e, ys, c)
    {
      assert Project(xs, c) == Project(ys, c);
    }
  }

  /** If one of two such logs applies without error, so does the other. */
  lemma SameOutcome(e: Engine, xs: seq<Transaction>, ys: seq<Transaction>)
    requires SameClientOrder(xs, ys)
    ensures ApplyAll(e, xs).error.None? ==> ApplyAll(e, ys).error.None?
  {
    ClientView(e, xs);
    ClientView(e, ys);
    SameClientRuns(e, xs, ys);
  }

  /** Two such logs that apply without error leave the same clients with accounts. */
  lemma SameKeys(e: Engine, xs: seq<Transaction>, ys: seq<Transaction>)
    requires SameClientOrder(xs, ys)
    requires ApplyAll(e, xs).error.None? && ApplyAll(e, ys).error.None?
    ensures ApplyAll(e, xs).engine.Keys == ApplyAll(e, ys).engine.Keys
  {
    ClientView(e, xs);
    ClientView(e, ys);
    forall c
      ensures c in ApplyAll(e, xs).engine <==> c in ApplyAll(e, ys).engine
    {
      assert Project(xs, c) == Project(ys, c);
    }
  }

  /** ... and give every such client the same account. */
  lemma SameAccounts(e: Engine, xs: seq<Transaction>, ys: seq<Transaction>)
    requires SameClientOrder(xs, ys)
    requires ApplyAll(e, xs).error.None? && ApplyAll(e, ys).error.None?
    requires ApplyAll(e, xs).engine.Keys == ApplyAll(e, ys).engine.Keys
    ensures forall c :: c in ApplyAll(e, xs).engine ==> ApplyAll(e, xs).engine[c] == ApplyAll(e, ys).engine[c]
  {
    ClientView(e, xs);
    ClientView(e, ys);
    SameClientRuns(e, xs, ys);
  }

  /** A shard holds all of a client's transactions, in order, when the client
      routes to it, and none of them otherwise. */
  lemma {:induction false} ProjectShard(txs: seq<Transaction>, p: nat, i: nat, c: ClientId)
    requires p >= 1
    ensures Project(Shard(txs, p, i), c) == if ShardOf(c, p) == i then Project(txs, c) else []
    decreases |txs|
  {
    if |txs| > 0 {
      var head := if ShardOf(txs[0].client, p) == i then [txs[0]] else [];
      ProjectAppend(head, Shard(txs[1..], p, i), c);
      ProjectShard(txs[1..], p, i, c);
      assert Project(head, c) == if ShardOf(c, p) == i && txs[0].client == c then [txs[0]] else [] by {
        if |head| > 0 {
          assert head[1..] == [];
        }
      }
    }
  }

  /** When every queue holds its shard of the input, the queues of workers
      `i ..` hold a client's transactions exactly when that client routes to
      one of them. */
  lemma {:induction false} ProjectQueues(pool: Pool, txs: seq<Transaction>, i: nat, c: ClientId)
    requires HasAllWorkers(pool)
    requires forall j :: 0 <= j < pool.parallelism ==> pool.queues[j] == Shard(txs, pool.parallelism, j)
    ensures Project(QueuesFrom(pool, i), c) == if i <= ShardOf(c, pool.parallelism) then Project(txs, c) else []
    decreases pool.parallelism - i
  {
    if i < pool.parallelism {
      assert QueuesFrom(pool, i) == pool.queues[i] + QueuesFrom(pool, i + 1);
      ProjectAppend(pool.queues[i], QueuesFrom(pool, i + 1), c);
      ProjectShard(txs, pool.parallelism, i, c);
      assert Project(pool.queues[i], c) == if ShardOf(c, pool.parallelism) == i then Project(txs, c) else [];
      ProjectQueues(pool, txs, i + 1, c);
    }
  }

  /** The headline property. For every worker setting and host parallelism,
      routing the input to shards and waiting on the workers succeeds exactly
      when applying the input sequentially raises no fatal error, and then
      gives the same directory. */
  lemma ShardedEqualsSequential(e: Engine, txs: seq<Transaction>, numWorkers: ISize, sys: ISize)
    requires sys >= 1
    ensures Process(e, txs, numWorkers, sys).Success? <==> ApplyAll(e, txs).error.None?
    ensures Process(e, txs, numWorkers, sys).Success? ==>
      Process(e, txs, numWorkers, sys).value == ApplyAll(e, txs).engine
  {
    var pool := NewPool(numWorkers, sys);
    SubmitAllRoutes(pool, txs);
    var pool' := SubmitAll(pool, txs).value;
    assert HasAllWorkers(pool');
    QueuesKeepClientOrder(pool, pool', txs);
    WaitIsSequential(pool', e, 0);
    Determinism(e, QueuesFrom(pool', 0), txs);
    var w := Wait(pool', e);
    assert Process(e, txs, numWorkers, sys) == if w.Failure? then Failure(Ledger(w.error)) else Success(w.value);
  }

  /** Routing a whole input into empty queues keeps every client's
      transactions in input order. */
  lemma QueuesKeepClientOrder(pool: Pool, pool': Pool, txs: seq<Transaction>)
    requires HasAllWorkers(pool) && forall i :: i in pool.queues ==> pool.queues[i] == []
    requires SubmitAll(pool, txs) == Success(pool')
    ensures HasAllWorkers(pool')
    ensures SameClientOrder(QueuesFrom(pool', 0), txs)
  {
    SubmitAllRoutes(pool, txs);
    forall j | 0 <= j < pool'.parallelism
      ensures pool'.queues[j] == Shard(txs, pool'.parallelism, j)
    {
      assert j in pool.queues;
      assert pool.queues[j] + Shard(txs, pool'.parallelism, j) == Shard(txs, pool'.parallelism, j);
    }
    forall c
      ensures Project(QueuesFrom(pool', 0), c) == Project(txs, c)
    {
      ProjectQueues(pool', txs, 0, c);
    }
  }

  /** The final directory does not depend on the number of workers. */
  lemma WorkerCountIrrelevant(e: Engine, txs: seq<Transaction>, n1: ISize, sys1: ISize, n2: ISize, sys2: ISize)
    requires sys1 >= 1 && sys2 >= 1
    ensures Process(e, txs, n1, sys1).Success? <==> Process(e, txs, n2, sys2).Success?
    ensures Process(e, txs, n1, sys1).Success? ==> Process(e, txs, n1, sys1).value == Process(e, txs, n2, sys2).value
  {
    ShardedEqualsSequential(e, txs, n1, sys1);
    ShardedEqualsSequential(e, txs, n2, sys2);
  }

  /** Workers run concurrently, so the real order of application is some
      interleaving of the shards. Any schedule that keeps each shard's order
      fails exactly when the sequential run does and otherwise reaches the
      same directory. */
  lemma AnyShardInterleaving(e: Engine, txs: seq<Transaction>, schedule: seq<Transaction>, p: nat)
    requires p >= 1
    requires forall i :: 0 <= i < p ==> Shard(schedule, p, i) == Shard(txs, p, i)
    ensures ApplyAll(e, schedule).error.None? <==> ApplyAll(e, txs).error.None?
    ensures ApplyAll(e, schedule).error.None? ==> ApplyAll(e, schedule).engine == ApplyAll(e, txs).engine
  {
    forall c
      ensures Project(schedule, c) == Project(txs, c)
    {
      var i := ShardOf(c, p);
      ProjectShard(schedule, p, i, c);
      ProjectShard(txs, p, i, c);
    }
    Determinism(e, schedule, txs);
  }
}

=== FILE: transactions.dfy ===
/** The transaction records fed to the engine, and the lower-case wire names
    of their kinds. */
module Transactions {
  import opened Wrappers

  /** Client identifiers are 16-bit unsigned integers. */
  type ClientId = c: int | 0 <= c < 0x1_0000

  /** Transaction identifiers are 32-bit unsigned integers. */
  type TxId = t: int | 0 <= t < 0x1_0000_0000

  /** The five kinds of transaction. */
  datatype Kind = Deposit | Withdrawal | Dispute | Resolve | Chargeback

  /** Every kind, as a set. */
  const AllKinds: set<Kind> := {Deposit, Withdrawal, Dispute, Resolve, Chargeback}

  /** One input record. Amounts are exact decimals; dispute, resolve and
      chargeback records normally carry none. */
  datatype Transaction = Transaction(kind: Kind, client: ClientId, id: TxId, amount: Option<real>)

  /** The wire name of a kind: its variant name in lower case. */
  function KindName(k: Kind): (name: string)
    ensures |name| > 0
    ensures forall i :: 0 <= i < |name| ==> 'a' <= name[i] <= 'z'
  {
    match k
    case Deposit => "deposit"
    case Withdrawal => "withdrawal"
    case Dispute => "dispute"
    case Resolve => "resolve"
    case Chargeback => "chargeback"
  }

  /** Decodes a wire name; any other text names no kind. */
  function ParseKind(name: string): (r: Option<Kind>)
    ensures r.Some? ==> KindName(r.value) == name
  {
    if name == "deposit" then Some(Deposit)
    else if name == "withdrawal" then Some(Withdrawal)
    else if name == "dispute" then Some(Dispute)
    else if name == "resolve" then Some(Resolve)
    else if name == "chargeback" then Some(Chargeback)
    else None
  }

  /** Decoding an encoded kind gives the kind back. */
  lemma KindRoundTrip(k: Kind)
    ensures ParseKind(KindName(k)) == Some(k)
  {
  }

  /** A name decodes exactly when it is the wire name of some kind. */
  lemma ParseKindExact(name: string)
    ensures ParseKind(name).Some? <==> exists k :: KindName(k) == name
  {
    if k :| KindName(k) == name {
      KindRoundTrip(k);
    }
  }

  /** There are exactly five kinds and their wire names are pairwise distinct. */
  lemma FiveDistinctKinds()
    ensures forall k: Kind :: k in AllKinds
    ensures |AllKinds| == 5
    ensures forall k1, k2 :: KindName(k1) == KindName(k2) ==> k1 == k2
  {
    forall k: Kind
      ensures k in AllKinds
    {
      match k
      case Deposit =>
      case Withdrawal =>
      case Dispute =>
      case Resolve =>
      case Chargeback =>
    }
    forall k1, k2 | KindName(k1) == KindName(k2)
      ensures k1 == k2
    {
      KindRoundTrip(k1);
      KindRoundTrip(k2);
    }
  }
}

=== FILE: wrappers.dfy ===
/** `Option` for a value that may be absent and `Result` for an operation
    that may fail. */
module Wrappers {

  datatype Option<+T> = None | Some(value: T)

  datatype Result<+R, +E> = Success(value: R) | Failure(error: E)
}
